=== FILE: README.md ===
# Webhook order relay: decision logic in Dafny

This project models the trading relay's single handler, `main.py`. The handler
receives a trade signal on `/webhook`. When the side is not SELL, it:

- reads the USDC balance;
- looks up the symbol's lot filters;
- sizes a market BUY at 2% of the balance, floored to the exchange step size;
- sends the BUY;
- after a 200 response, brackets the position with a one-cancels-other (OCO)
  SELL order at the payload's take-profit and stop-loss.

All HTTP, the clock, HMAC signing and float formatting are outside the model.
The pure decisions between them are modelled as total functions over exact
reals and sequences:

- `Quantize` (`quantize.dfy`): `round_step`, flooring a quantity to a whole
  number of steps.
- `Query` (`query.dfy`): request parameters as an insertion-ordered dict. It
  covers the `k=v&...` query string that is signed, the dict assignment that
  appends the `signature` parameter, and reading a query string back into its
  parameters.
- `Account` (`account.dfy`): the balance selection of `get_balance`.
- `LotInfo` (`lot_info.dfy`): `get_lot_info`. It finds the first matching
  symbol and folds over its filters; the lot ends with the values of the last
  `LOT_SIZE` and the last `PRICE_FILTER` filter.
- `Signal` (`signal.dfy`): the JSON body and the six fields read from it.
  Python's truthiness of a JSON value (`Truthy`: an object is truthy when it
  has a key; any other value carries its truthiness) and `float()` of a field
  (`AsFloat`: a number is itself, a boolean is 1 or 0, a string is whatever
  `Host.parseFloat` reads, `null`, lists and objects raise) are plain
  definitions; their effect on the handler is stated by `ParseSignalSucceeds`
  and the `InvalidJson` clause of `OutcomeTable`.
- `Webhook` (`webhook.dfy`): the handler. It returns a `Reply`: the status code,
  the kind of outcome, and the exchange requests sent, in order.
- `WebhookProperties` (`webhook_props.dfy`): the decision table. It says which
  outcome each input reaches, when an order or OCO is sent, and what those
  requests contain.

Some values are passed in as parameters:

- The exchange's answers form an `Exchange` value: balances, the `symbols` list,
  the price, and the two order responses.
- The host's services form a `Host` value: the HMAC under the API secret, the
  `:.8f`/`:.2f` formats, Python's `float` of a string, and three clock readings.

## Behaviour of the handler worth knowing

- A truthy payload that lacks one of the six fields, or whose `side` or
  `position_type` is not a string, raises inside the `try` and is answered 500.
- A falsy body (`None`, `{}`, `[]`, `0`, `""`, ...) is answered 400
  "Invalid JSON".
- A side that upper-cases to `SELL` is answered 200 and sends no request. Only
  the BUY path trades.
- The only checks before the market order are a positive 2% of the USDC
  balance, a known lot, and a quantity of at least `minQty`.
- The stop and take-profit prices are the payload's `sl`/`tp` formatted with two
  decimals. `tickSize` is read but never used.
- A symbol with neither a `LOT_SIZE` nor a `PRICE_FILTER` filter yields an empty
  dict, which the handler reports as "lot info not found". A symbol with only a
  `PRICE_FILTER` reaches `lot["stepSize"]`, raises, and is answered 500.
- A zero price or a zero step size raises `ZeroDivisionError` and is answered 500.

## Model

| member | source | states |
|---|---|---|
| Quantize.RoundStep | main.py:53-54 | for a positive step the result is a whole number of steps, at most the quantity and less than one step below it, and non-negative for a non-negative quantity; a zero step is refused, as the division raises |
| Quantize.RoundStepIsGreatestMultiple | main.py:53-54 | over exact reals, every multiple of a positive step that does not exceed the quantity is at most the result, so the result is the greatest such multiple |
| Quantize.RoundStepIdempotent | main.py:53-54 | over exact reals, quantizing an already quantized value leaves it unchanged |
| Quantize.RoundStepBelowStepIsZero | main.py:53-54 | a non-negative quantity below one positive step quantizes to 0 |
| Quantize.RoundStepExample | main.py:53-54 | with a step of 0.00001, 0.123456 becomes 0.12345 |
| Query.QueryString | main.py:22 | the joined string is empty exactly when there are no parameters and otherwise begins with the first `k=v` item; `ParseQueryString` reads it back into the parameters |
| Query.Assign | main.py:32 | dict assignment: a new key is appended at the end; an existing key keeps its place and takes the new value; the other entries are unchanged |
| Query.Sign | main.py:20-23 | assigning `signature` the HMAC of the query string keeps keys distinct, makes `signature` look up that HMAC, and leaves every other earlier parameter in place |
| Query.SignAppendsSignature | main.py:20-23 | signing parameters without a `signature` appends `signature` as the last parameter. Its value is the HMAC of the query string of exactly the earlier parameters, and the keys stay distinct |
| Query.ParseQueryString | main.py:22 | the signed string lists every `k=v` pair joined by `&` in insertion order: parsing it gives the parameters back, when keys hold no `&` or `=` and values no `&` |
| Query.Decimal | main.py:102 | `str(ts)` of a timestamp is a non-empty string of decimal digits with no leading zero (except for 0 itself) |
| Query.DecimalRoundTrip | main.py:102 | reading those digits back as a decimal number gives the timestamp |
| Query.SignedStringOmitsSignature | main.py:22-23 | the string a request's signature covers, read back, is exactly the parameters before the signature and holds no `signature` pair |
| Query.AssignKeepsDistinct | main.py:32 | assigning a key keeps the dict's keys distinct |
| Account.GetBalance | main.py:36-37 | the result is the `free` amount of the first entry whose asset matches, and 0 when no entry matches |
| Account.PrependOtherAsset | main.py:36-37 | putting an entry for another asset in front leaves the balance unchanged |
| Account.FirstMatchWins | main.py:36-37 | entries after the first match are never read |
| LotInfo.FindSymbol | main.py:42-43 | there is no result exactly when no symbol entry has the name; otherwise the result is the first entry with that name |
| LotInfo.Apply | main.py:46-50 | one filter: a filter of another type changes nothing; a `LOT_SIZE` filter makes `minQty`/`stepSize` present and a `PRICE_FILTER` makes `tickSize` present |
| LotInfo.Fold | main.py:44-50 | after the loop, `minQty`/`stepSize` are absent exactly when they were absent before and no filter is `LOT_SIZE`, and likewise `tickSize` for `PRICE_FILTER`; `FoldIsLastFilter` gives the values |
| LotInfo.GetLotInfo | main.py:39-51 | None exactly when no entry has the name; `GetLotInfoSpec` gives the lot |
| LotInfo.LastLotSize | main.py:45-48 | reference definition: there is none exactly when no filter is `LOT_SIZE`; otherwise the value is that of a `LOT_SIZE` filter with no later `LOT_SIZE` filter |
| LotInfo.LastTickSize | main.py:45-50 | reference definition: the same for `PRICE_FILTER` and `tickSize` |
| LotInfo.FoldIsLastFilter | main.py:44-51 | the filter loop leaves `minQty`/`stepSize` from the last `LOT_SIZE` filter and `tickSize` from the last `PRICE_FILTER`, and keeps the initial value when there is none |
| LotInfo.GetLotInfoSpec | main.py:39-51 | `get_lot_info` gives None exactly when no entry has the name. Otherwise the lot of the first matching entry holds the last `LOT_SIZE` values and the last `PRICE_FILTER` tick size |
| LotInfo.EmptyLotIffNoKnownFilter | main.py:44-51 | the lot is the empty, falsy dict exactly when the symbol has neither a `LOT_SIZE` nor a `PRICE_FILTER` filter |
| LotInfo.OtherFilterIgnored | main.py:45-50 | a filter of any other type, wherever it stands, does not change the result |
| Signal.Upper | main.py:68 | ASCII `.upper()`: keeps the length, leaves no letter `a`-`z`, keeps every other character, and turns each lower-case letter into the capital at the same place in the alphabet |
| Signal.UpperIdempotent | main.py:68 | upper-casing an upper-cased string changes nothing |
| Signal.AsUpper | main.py:68-72 | `.upper()` on a field succeeds exactly when the value is a string (otherwise it raises), and gives a string of the same length with no lower-case ASCII letter |
| Signal.ParseSignal | main.py:67-72 | a parsed signal comes only from an object that holds all six fields; its symbol, upper-cased side, `sl` and `tp` are those fields converted |
| Signal.MissingFieldFails | main.py:67-72 | a body missing any of the six fields does not parse, whatever the others hold |
| Signal.ParseSignalSucceeds | main.py:67-72 | an object parses exactly when all six fields are present, `side` and `position_type` are strings, and `entry_price`, `sl`, `tp` convert to floats |
| Signal.UpperIsSell | main.py:68-75 | under ASCII upper-casing, a side becomes `SELL` exactly when it is "sell" in any mix of ASCII cases |
| Webhook.AccountParams | main.py:30-32 | the account request is well signed: the signature is its last parameter, appears nowhere before, and is the HMAC of the query string of all the parameters before it |
| Webhook.MarketOrderParams | main.py:96-104 | the market order is well signed in the same sense |
| Webhook.MarketOrderContents | main.py:97-104 | the signed market order has distinct keys; looking up `side`, `type`, `symbol` and `quantity` gives BUY, MARKET, the symbol and the given quantity |
| Webhook.OcoParams | main.py:117-128 | the OCO order is well signed in the same sense |
| Webhook.OcoContents | main.py:118-128 | the signed OCO order has distinct keys; it is a SELL for the symbol of the given quantity at the given price, and its stop price and stop-limit price are both the given stop |
| Webhook.TwoPercent | main.py:80-81 | 2% of the `free` amount of the first USDC balance entry, and 0 when there is none |
| Webhook.LotFor | main.py:85 | `get_lot_info(symbol)`: for a string symbol, None exactly when no exchange entry has that name; a non-string symbol never finds a lot |
| Webhook.Quantity | main.py:89-91 | the order quantity is a whole number of steps and, for a positive step, at most 2% of the balance divided by the price |
| Webhook.StatusOf | main.py:62-145 | 200 exactly for the ignored SELL, the OCO warning and the success; 500 exactly for a raised exception; 400 otherwise |
| Webhook.Handle | main.py:59-145 | the status code is the one of the outcome kind, and every signed request sent is well signed |
| Webhook.Buy | main.py:79-83 | the same for the BUY path from the balance check on |
| Webhook.FindLot | main.py:85-87 | the same from the lot lookup on |
| Webhook.SizeOrder | main.py:89-93 | the same from the sizing on |
| Webhook.PlaceOrders | main.py:95-141 | the same for the market and OCO orders |
| WebhookProperties.HandleNoBalance | main.py:79-83 | a parsed non-SELL signal with 2% of the USDC balance at most 0 is answered 400 after the account read alone |
| WebhookProperties.HandleNoSymbols | main.py:40-43 | when the exchange information has no `symbols` list, the lookup raises and is answered 500 after the account and exchange information reads |
| WebhookProperties.HandleLotNotFound | main.py:85-87 | a funded signal whose symbol has no entry, or only an empty lot, is answered 400 after the account and exchange information reads |
| WebhookProperties.HandleUnsizable | main.py:89-91 | a known lot with a zero price, no `stepSize` or a zero step raises and is answered 500 after the three reads |
| WebhookProperties.HandleBelowMinQty | main.py:89-93 | a computable quantity below `minQty` is answered 400 after the three reads |
| WebhookProperties.HandleOrders | main.py:95-141 | past every gate, the handler goes on to the orders with exactly the three reads sent so far, each well signed |
| WebhookProperties.OutcomeTable | main.py:59-141 | with every request returning, each outcome occurs exactly when every earlier gate passes and its own gate fails. Gates, in order: truthy body, six fields parse, not SELL, positive 2% of balance, exchange information has `symbols`, lot found and non-empty, quantity computable, quantity at least `minQty`, market order 200, OCO 200 |
| WebhookProperties.MissingFieldRaises | main.py:66-77 | a truthy payload missing any field is answered 500 with no request sent, even when its side is SELL |
| WebhookProperties.SellSendsNothing | main.py:74-77 | a side that upper-cases to SELL is answered 200 "ignored" and sends nothing |
| WebhookProperties.ReadsOnly | main.py:80-93 | short of every order gate passing, at most the three reads are sent, never a market or OCO order, and the outcome is none of the order outcomes |
| WebhookProperties.MarketOrderGate | main.py:80-107 | a market order is sent exactly when every gate before it passes |
| WebhookProperties.MarketOrderSent | main.py:89-107 | the market order follows the three reads. It is a BUY at MARKET for the symbol. Its quantity is a whole number of steps, at least `minQty`, and for a positive step at most 2% of the balance divided by the price |
| WebhookProperties.OrderedCalls | main.py:95-141 | past every gate, the reads are followed by the market order; a non-200 answer ends there with 400, otherwise the OCO order follows and its answer decides between the 200 warning and the 200 success |
| WebhookProperties.OrderedCallsAt | main.py:95-130 | the same, request by request: the three reads, the market order fourth, and the OCO fifth and last after a 200 |
| WebhookProperties.OcoGate | main.py:110-130 | an OCO order is sent exactly when the market order was sent and answered 200 |
| WebhookProperties.OcoSent | main.py:114-130 | the OCO is a SELL at the payload's `tp`, with stop and stop-limit price both the payload's `sl`. Its quantity is the response's `executedQty`, or the ordered quantity when that field is absent |
| WebhookProperties.OcoFailureKeepsMarketOrder | main.py:130-135 | a failed OCO is answered 200 as a warning. The market order stands and nothing is sent after the OCO attempt |
| WebhookProperties.SizingExampleOrders | main.py:80-107 | with 1000 USDC, price 50000 and step and `minQty` 0.0001, an order for 0.0004 is sent |
| WebhookProperties.SizingExampleTooSmall | main.py:80-93 | with 100 USDC the quantity floors to 0, below `minQty`: answered 400, no order |

## Left out

- Flask routing, `request.get_json` and `jsonify`. A reply is a status code and a
  kind; the JSON messages and the details echoed back are not modelled.
- A body that is not valid JSON makes `get_json(force=True)` raise outside the
  handler's `try`, so Flask answers it. The model starts from the parsed value.
- The HTTP requests themselves. Their results are parameters. The model assumes
  each response has the expected shape: a dict for the order response, and
  balance and filter entries that hold the keys read from them. A response that
  breaks this raises in the source, and the model does not represent that.
- The HMAC-SHA256 of section 2 of RFC 2104 over SHA-256 (FIPS 180-4) is the
  function `Host.hmac`.
- `time.time()` readings are the three timestamps of `Host`.
- Environment variables, the API-key header, the base URL and `print` logging.
- Requests that raise or hang. Each `requests.get`/`requests.post` (main.py:26,
  34, 40, 107, 130) can raise on a connection error, and each `r.json()` (main.py:27,
  35, 41, 108, 131) on a body that is not JSON; the handler answers any of these
  500 (main.py:143-145). That 500 can follow a market order the exchange has
  already executed: when the order response or the OCO request raises, the
  position is open without a bracket and the caller sees only an error. The
  model assumes every request returns, so it never answers 500 after an order;
  the 200 OCO warning of `OcoFailureKeepsMarketOrder` covers only an OCO request
  that returns. No request passes a `timeout`, so any of them can also hang.
- Binary floating point. Values are exact reals, and `0.02` is exact.
  `float()` of a string is `Host.parseFloat`, and `:.8f`/`:.2f` are
  `Host.fixed8`/`Host.fixed2`. NaN and infinities are not represented.
- Quantize.RoundStep: is the exact floor of `qty / step` over reals, times
  `step`. main.py:54 divides two binary doubles, floors the quotient, multiplies
  back and re-rounds through `:.8f`; none of that rounding is modelled. The float
  quotient can land just below a whole number at an exact multiple, flooring one
  step low even for ordinary steps: `0.3 / 0.1` is `2.9999999999999996` in
  doubles, so the source's `round_step(0.3, 0.1)` is 0.2 where the model gives
  0.3. At the `minQty` gate this can decide the outcome: with 750 USDC, price 50,
  step 0.1 and `minQty` 0.3 the source answers 400 and the model sends the order.
- Quantize.RoundStepIsGreatestMultiple: holds of the exact floor over reals. The
  source's float `round_step` can return one step below the greatest multiple at
  an exact multiple (0.2 for 0.3 with step 0.1).
- Quantize.RoundStepIdempotent: holds of the exact floor over reals. The source's
  float `round_step` is not idempotent: 0.35 with step 0.1 gives 0.3, and 0.3
  again gives 0.2.
- Signal.UpperIsSell: covers only the ASCII spellings of "sell". Python also
  upper-cases U+017F (long s) to `S`, so "ſell", "ſELL", "ſeLl" and the other
  spellings starting with U+017F are ignored as SELL by main.py:75 but would be
  handled as a BUY by the model.
- Signal.Upper: upper-casing is ASCII only. Python's Unicode case mapping (for
  example U+017F, which upper-cases to `S`) is not modelled.
- The symbol in the `exchangeInfo` and price queries is carried as the JSON
  value; its string form in the URL is not modelled. A non-string symbol never
  equals an exchange symbol name, so the handler stops at the lot lookup: 400
  "lot info not found", or 500 when the response has no `symbols`. No signed
  request carries it.

=== FILE: account.dfy ===
/**
 * Balance selection of `get_balance` (main.py:36-37): the `free` amount of the
 * first `balances` entry whose asset matches, or 0 when none does. The signed
 * account request itself is built by the webhook model; a response without a
 * `balances` key reads as an empty list (`data.get("balances", [])`).
 */
module Account {

  /** One entry of the account's `balances`, with `free` already a number. */
  datatype BalanceEntry = BalanceEntry(asset: string, free: real)

  function GetBalance(balances: seq<BalanceEntry>, asset: string): (r: real)
    ensures (forall i :: 0 <= i < |balances| ==> balances[i].asset != asset) ==> r == 0.0
    ensures forall i :: 0 <= i < |balances| && balances[i].asset == asset
                        && (forall j :: 0 <= j < i ==> balances[j].asset != asset)
                        ==> r == balances[i].free
  {
    if |balances| == 0 then 0.0
    else if balances[0].asset == asset then balances[0].free
    else GetBalance(balances[1..], asset)
  }

  /** An entry for another asset in front changes nothing. */
  lemma PrependOtherAsset(e: BalanceEntry, balances: seq<BalanceEntry>, asset: string)
    requires e.asset != asset
    ensures GetBalance([e] + balances, asset) == GetBalance(balances, asset)
  {
    assert ([e] + balances)[1..] == balances;
  }

  /** Entries after the first match are never read. */
  lemma FirstMatchWins(e: BalanceEntry, rest: seq<BalanceEntry>)
    ensures GetBalance([e] + rest, e.asset) == e.free
  {}
}

=== FILE: lot_info.dfy ===
/**
 * Filter extraction of `get_lot_info` (main.py:39-51): find the first symbol
 * entry of the exchange information with the requested name, then fold its
 * filters into a "lot" record. `LOT_SIZE` sets `minQty` and `stepSize`,
 * `PRICE_FILTER` sets `tickSize`, a later filter overwrites an earlier one,
 * and every other filter type is skipped.
 */
module LotInfo {
  import opened Wrappers

  /**
   * One entry of a symbol's `filters`. Only the fields its `filterType` calls
   * for are read: `minQty`/`stepSize` of a `LOT_SIZE`, `tickSize` of a `PRICE_FILTER`.
   */
  datatype Filter = Filter(filterType: string, minQty: real, stepSize: real, tickSize: real)

  datatype SymbolInfo = SymbolInfo(symbol: string, filters: seq<Filter>)

  datatype LotSize = LotSize(minQty: real, stepSize: real)

  /**
   * The `lot` dict. `minQty` and `stepSize` are always set together, so they
   * are one optional field; the dict is empty when both fields are absent.
   */
  datatype Lot = Lot(lotSize: Option<LotSize>, tickSize: Option<real>) {
    /** An empty dict is falsy in Python. */
    predicate IsEmpty() {
      lotSize.None? && tickSize.None?
    }
  }

  const EmptyLot := Lot(None, None)

  /** `next((x for x in symbols if x["symbol"] == symbol), None)` */
  function FindSymbol(symbols: seq<SymbolInfo>, name: string): (r: Option<SymbolInfo>)
    ensures r.None? <==> forall i :: 0 <= i < |symbols| ==> symbols[i].symbol != name
    ensures r.Some? ==> exists i :: 0 <= i < |symbols| && symbols[i] == r.value
                          && forall j :: 0 <= j < i ==> symbols[j].symbol != name
    ensures r.Some? ==> r.value.symbol == name
  {
    if |symbols| == 0 then None
    else if symbols[0].symbol == name then Some(symbols[0])
    else
      FindSymbol(symbols[1..], name)
  }

  /** One iteration of the filter loop (main.py:46-50). */
  function Apply(lot: Lot, f: Filter): (r: Lot)
    ensures f.filterType != "LOT_SIZE" && f.filterType != "PRICE_FILTER" ==> r == lot
    ensures r.lotSize.Some? <==> lot.lotSize.Some? || f.filterType == "LOT_SIZE"
    ensures r.tickSize.Some? <==> lot.tickSize.Some? || f.filterType == "PRICE_FILTER"
  {
    var lot := if f.filterType == "LOT_SIZE" then lot.(lotSize := Some(LotSize(f.minQty, f.stepSize))) else lot;
    if f.filterType == "PRICE_FILTER" then lot.(tickSize := Some(f.tickSize)) else lot
  }

  /** The loop over the filters, from an initial `lot`. */
  function Fold(lot: Lot, fs: seq<Filter>): (r: Lot)
    ensures r.lotSize.None? <==> lot.lotSize.None? && forall i :: 0 <= i < |fs| ==> fs[i].filterType != "LOT_SIZE"
    ensures r.tickSize.None? <==> lot.tickSize.None? && forall i :: 0 <= i < |fs| ==> fs[i].filterType != "PRICE_FILTER"
    decreases |fs|
  {
    if |fs| == 0 then lot else Fold(Apply(lot, fs[0]), fs[1..])
  }

  /** `get_lot_info`, given the exchange's `symbols` list. */
  function GetLotInfo(symbols: seq<SymbolInfo>, name: string): (r: Option<Lot>)
    ensures r.None? <==> forall i :: 0 <= i < |symbols| ==> symbols[i].symbol != name
  {
    match FindSymbol(symbols, name)
    case None => None
    case Some(s) => Some(Fold(EmptyLot, s.filters))
  }

  // ---------------------------------------------------------------------------
  // Reference definitions: the last filter of each kind, read from the end.

  function LastLotSize(fs: seq<Filter>): (r: Option<LotSize>)
    ensures r.None? <==> forall i :: 0 <= i < |fs| ==> fs[i].filterType != "LOT_SIZE"
    ensures r.Some? ==> exists i :: 0 <= i < |fs| && fs[i].filterType == "LOT_SIZE"
                          && r.value == LotSize(fs[i].minQty, fs[i].stepSize)
                          && forall j :: i < j < |fs| ==> fs[j].filterType != "LOT_SIZE"
  {
    if |fs| == 0 then None
    else
      var f := fs[|fs| - 1];
      if f.filterType == "LOT_SIZE" then Some(LotSize(f.minQty, f.stepSize))
      else LastLotSize(fs[..|fs| - 1])
  }

  function LastTickSize(fs: seq<Filter>): (r: Option<real>)
    ensures r.None? <==> forall i :: 0 <= i < |fs| ==> fs[i].filterType != "PRICE_FILTER"
    ensures r.Some? ==> exists i :: 0 <= i < |fs| && fs[i].filterType == "PRICE_FILTER"
                          && r.value == fs[i].tickSize
                          && forall j :: i < j < |fs| ==> fs[j].filterType != "PRICE_FILTER"
  {
    if |fs| == 0 then None
    else
      var f := fs[|fs| - 1];
      if f.filterType == "PRICE_FILTER" then Some(f.tickSize)
      else LastTickSize(fs[..|fs| - 1])
  }

  /** Folding over `a + b` is folding over `a`, then over `b`. */
  lemma {:induction false} FoldAppend(lot: Lot, a: seq<Filter>, b: seq<Filter>)
    ensures Fold(lot, a + b) == Fold(Fold(lot, a), b)
    decreases |a|
  {
    if |a| > 0 {
      assert (a + b)[1..] == a[1..] + b;
      FoldAppend(Apply(lot, a[0]), a[1..], b);
    } else {
      assert a + b == b;
    }
  }

  /** The fold keeps a field from the last filter that sets it, or from the initial lot. */
  lemma {:induction false} FoldIsLastFilter(lot: Lot, fs: seq<Filter>)
    ensures Fold(lot, fs).lotSize == (if LastLotSize(fs).Some? then LastLotSize(fs) else lot.lotSize)
    ensures Fold(lot, fs).tickSize == (if LastTickSize(fs).Some? then LastTickSize(fs) else lot.tickSize)
    decreases |fs|
  {
    if |fs| > 0 {
      var init := fs[..|fs| - 1];
      var f := fs[|fs| - 1];
      assert fs == init + [f];
      FoldAppend(lot, init, [f]);
      FoldIsLastFilter(lot, init);
      assert Fold(Fold(lot, init), [f]) == Apply(Fold(lot, init), f);
    }
  }

  /**
   * `get_lot_info` returns None exactly when no entry has the name; otherwise
   * `minQty`/`stepSize` come from the last `LOT_SIZE` filter and `tickSize`
   * from the last `PRICE_FILTER` of the first matching entry.
   */
  lemma GetLotInfoSpec(symbols: seq<SymbolInfo>, name: string)
    ensures GetLotInfo(symbols, name).None? <==> forall i :: 0 <= i < |symbols| ==> symbols[i].symbol != name
    ensures GetLotInfo(symbols, name).Some? ==>
      var s := FindSymbol(symbols, name).value;
      && GetLotInfo(symbols, name).value.lotSize == LastLotSize(s.filters)
      && GetLotInfo(symbols, name).value.tickSize == LastTickSize(s.filters)
  {
    if FindSymbol(symbols, name).Some? {
      FoldIsLastFilter(EmptyLot, FindSymbol(symbols, name).value.filters);
    }
  }

  /** A symbol with neither a `LOT_SIZE` nor a `PRICE_FILTER` filter gives the empty, falsy lot. */
  lemma EmptyLotIffNoKnownFilter(symbols: seq<SymbolInfo>, name: string)
    requires GetLotInfo(symbols, name).Some?
    ensures GetLotInfo(symbols, name).value.IsEmpty() <==>
      forall i :: 0 <= i < |FindSymbol(symbols, name).value.filters| ==>
        FindSymbol(symbols, name).value.filters[i].filterType !in {"LOT_SIZE", "PRICE_FILTER"}
  {
    GetLotInfoSpec(symbols, name);
  }

  /** A filter of any other type, wherever it sits, does not change the result. */
  lemma {:induction false} OtherFilterIgnored(lot: Lot, a: seq<Filter>, f: Filter, b: seq<Filter>)
    requires f.filterType != "LOT_SIZE" && f.filterType != "PRICE_FILTER"
    ensures Fold(lot, a + [f] + b) == Fold(lot, a + b)
  {
    FoldAppend(lot, a + [f], b);
    FoldAppend(lot, a, [f]);
    FoldAppend(lot, a, b);
    assert Fold(Fold(lot, a), [f]) == Apply(Fold(lot, a), f);
  }
}

=== FILE: quantize.dfy ===
/**
 * Step quantization of an order quantity (`round_step`, main.py:53-54):
 * the quantity is floored to a whole number of exchange steps.
 * The final `:.8f` formatting and re-parsing is binary-float behaviour and is
 * not part of the model; quantities are exact reals.
 */
module Quantize {

  /** `x` is a whole number of `step`s. */
  predicate IsMultipleOf(x: real, step: real)
    requires step != 0.0
  {
    (x / step).Floor as real == x / step
  }

  /**
   * `math.floor(qty / step) * step`. The source divides by `step`, so a zero
   * step raises (the caller handles that); any other step is accepted.
   */
  function RoundStep(qty: real, step: real): (r: real)
    requires step != 0.0
    ensures IsMultipleOf(r, step)
    ensures step > 0.0 ==> r <= qty && qty - r < step
    ensures step > 0.0 && qty >= 0.0 ==> r >= 0.0
  {
    var k := (qty / step).Floor;
    MultipleOfInt(k, step);
    FloorBounds(qty, step);
    k as real * step
  }

  /** An integer number of steps is a multiple of the step. */
  lemma MultipleOfInt(k: int, step: real)
    requires step != 0.0
    ensures IsMultipleOf(k as real * step, step)
  {
    assert k as real * step / step == k as real;
  }

  /** Multiplying the floor bounds of `qty / step` back by a positive step. */
  lemma FloorBounds(qty: real, step: real)
    requires step != 0.0
    ensures var k := (qty / step).Floor;
      step > 0.0 ==> k as real * step <= qty < (k + 1) as real * step
  {
    var k := (qty / step).Floor;
    var q := qty / step;
    assert k as real <= q < k as real + 1.0;
    if step > 0.0 {
      assert q * step == qty;
      MulMono(k as real, q, step);
      MulMonoStrict(q, k as real + 1.0, step);
      assert (k + 1) as real == k as real + 1.0;
      assert qty < (k + 1) as real * step;
      assert k as real * step <= qty;
    }
  }

  lemma MulMono(a: real, b: real, c: real)
    requires a <= b && c > 0.0
    ensures a * c <= b * c
  {}

  lemma DivBound(a: real, b: real, c: real)
    requires a * c <= b && c > 0.0
    ensures a <= b / c
  {
    assert a == a * c / c;
  }

  lemma MulMonoStrict(a: real, b: real, c: real)
    requires a < b && c > 0.0
    ensures a * c < b * c
  {}

  /**
   * The result is the GREATEST multiple of a positive step not above `qty`:
   * every multiple `k * step <= qty` is at most the result.
   */
  lemma RoundStepIsGreatestMultiple(qty: real, step: real, k: int)
    requires step > 0.0
    requires k as real * step <= qty
    ensures k as real * step <= RoundStep(qty, step)
  {
    var f := (qty / step).Floor;
    assert RoundStep(qty, step) == f as real * step;
    DivBound(k as real, qty, step);
    assert k <= f;
    MulMono(k as real, f as real, step);
  }

  /** A value that already is a multiple of the step is left unchanged. */
  lemma RoundStepFixesMultiples(x: real, step: real)
    requires step != 0.0
    requires IsMultipleOf(x, step)
    ensures RoundStep(x, step) == x
  {
    var q := x / step;
    assert q.Floor as real == q;
    assert q * step == x;
  }

  /** Quantizing twice is quantizing once. */
  lemma RoundStepIdempotent(qty: real, step: real)
    requires step != 0.0
    ensures RoundStep(RoundStep(qty, step), step) == RoundStep(qty, step)
  {
    RoundStepFixesMultiples(RoundStep(qty, step), step);
  }

  /** A non-negative quantity below one step quantizes to zero. */
  lemma RoundStepBelowStepIsZero(qty: real, step: real)
    requires step > 0.0
    requires 0.0 <= qty < step
    ensures RoundStep(qty, step) == 0.0
  {
    var f := (qty / step).Floor;
    FloorBounds(qty, step);
    if f >= 1 {
      MulMono(1.0, f as real, step);
      assert false;
    }
    if f <= -1 {
      MulMono((f + 1) as real, 0.0, step);
      assert false;
    }
  }

  /** The worked case of a step of 0.00001: 0.123456 becomes 0.12345. */
  lemma RoundStepExample()
    ensures RoundStep(0.123456, 0.00001) == 0.12345
  {
    assert 0.123456 / 0.00001 == 12345.6;
    assert (12345.6 as real).Floor == 12345;
  }
}

=== FILE: query.dfy ===
/**
 * Request parameters and their signature (`sign_params`, main.py:20-23, and the
 * three places that add the `signature` parameter: main.py:32, 104, 128).
 *
 * A Python dict keeps insertion order, so the parameters are a sequence of
 * key/value pairs. The HMAC-SHA256 of section 2 of RFC 2104 is not modelled:
 * it is a function value `hmac` over the query string, keyed by the secret.
 */
module Query {
  import opened Wrappers

  type Params = seq<(string, string)>

  /** The keys of the parameters, in insertion order. */
  function Keys(ps: Params): (ks: seq<string>)
    ensures |ks| == |ps|
    ensures forall i :: 0 <= i < |ps| ==> ks[i] == ps[i].0
  {
    if |ps| == 0 then [] else [ps[0].0] + Keys(ps[1..])
  }

  /** Python dict keys are unique. */
  predicate DistinctKeys(ps: Params) {
    forall i, j :: 0 <= i < j < |ps| ==> ps[i].0 != ps[j].0
  }

  /** `params[key]`: the value stored under `key`, if any. */
  function Lookup(ps: Params, key: string): Option<string> {
    if |ps| == 0 then None
    else if ps[0].0 == key then Some(ps[0].1)
    else Lookup(ps[1..], key)
  }

  /** With distinct keys, each key looks up its own value. */
  lemma {:induction false} LookupAt(ps: Params, i: int)
    requires DistinctKeys(ps) && 0 <= i < |ps|
    ensures Lookup(ps, ps[i].0) == Some(ps[i].1)
  {
    if i > 0 {
      LookupAt(ps[1..], i - 1);
    }
  }

  /** One `k=v` item of the query. */
  function Item(p: (string, string)): string {
    p.0 + "=" + p.1
  }

  /** `"&".join(f"{k}={v}" for k, v in params.items())` */
  function QueryString(ps: Params): (r: string)
    ensures r == "" <==> |ps| == 0
    ensures |ps| > 0 ==> Item(ps[0]) <= r
  {
    if |ps| == 0 then ""
    else if |ps| == 1 then Item(ps[0])
    else Item(ps[0]) + "&" + QueryString(ps[1..])
  }

  /**
   * `params[key] = value` on a dict: an existing key keeps its position and
   * takes the new value; a new key is appended at the end.
   */
  function Assign(ps: Params, key: string, value: string): (r: Params)
    requires DistinctKeys(ps)
    ensures key !in Keys(ps) ==> r == ps + [(key, value)]
    ensures key in Keys(ps) ==> |r| == |ps| && Keys(r) == Keys(ps)
    ensures forall i :: 0 <= i < |r| && r[i].0 == key ==> r[i].1 == value
    ensures forall i :: 0 <= i < |ps| && ps[i].0 != key ==> r[i] == ps[i]
  {
    if |ps| == 0 then [(key, value)]
    else if ps[0].0 == key then [(key, value)] + ps[1..]
    else [ps[0]] + Assign(ps[1..], key, value)
  }

  /** `params["signature"] = sign_params(params, secret)` */
  function Sign(ps: Params, hmac: string -> string): (r: Params)
    requires DistinctKeys(ps)
    ensures DistinctKeys(r)
    ensures Lookup(r, "signature") == Some(hmac(QueryString(ps)))
    ensures |r| >= |ps|
    ensures forall i :: 0 <= i < |ps| && ps[i].0 != "signature" ==> r[i] == ps[i]
  {
    AssignKeepsDistinct(ps, "signature", hmac(QueryString(ps)));
    AssignLookup(ps, "signature", hmac(QueryString(ps)));
    Assign(ps, "signature", hmac(QueryString(ps)))
  }

  /**
   * What a request signed by `Sign` looks like: `signature` is the last
   * parameter, its value is the HMAC of the query string of all the
   * parameters before it, and none of those is a `signature` parameter.
   */
  predicate WellSigned(ps: Params, hmac: string -> string) {
    && |ps| >= 1
    && ps[|ps| - 1].0 == "signature"
    && "signature" !in Keys(ps[..|ps| - 1])
    && ps[|ps| - 1].1 == hmac(QueryString(ps[..|ps| - 1]))
  }

  /** Signing parameters that hold no `signature` yet appends it last, over exactly those parameters. */
  lemma SignAppendsSignature(ps: Params, hmac: string -> string)
    requires DistinctKeys(ps) && "signature" !in Keys(ps)
    ensures Sign(ps, hmac) == ps + [("signature", hmac(QueryString(ps)))]
    ensures Sign(ps, hmac)[..|ps|] == ps
    ensures WellSigned(Sign(ps, hmac), hmac)
    ensures DistinctKeys(Sign(ps, hmac))
  {
    var r := Sign(ps, hmac);
    assert r == ps + [("signature", hmac(QueryString(ps)))];
    assert r[..|r| - 1] == ps;
    assert r[|r| - 1] == ("signature", hmac(QueryString(ps)));
  }

  /** After the assignment the key looks up the assigned value. */
  lemma {:induction false} AssignLookup(ps: Params, key: string, value: string)
    requires DistinctKeys(ps)
    ensures Lookup(Assign(ps, key, value), key) == Some(value)
  {
    if |ps| > 0 && ps[0].0 != key {
      AssignLookup(ps[1..], key, value);
      assert Assign(ps, key, value)[1..] == Assign(ps[1..], key, value);
    }
  }

  /** Assigning a key keeps the keys distinct. */
  lemma AssignKeepsDistinct(ps: Params, key: string, value: string)
    requires DistinctKeys(ps)
    ensures DistinctKeys(Assign(ps, key, value))
  {
    var r := Assign(ps, key, value);
    if key in Keys(ps) {
      assert forall i :: 0 <= i < |r| ==> r[i].0 == ps[i].0 by {
        forall i | 0 <= i < |r| ensures r[i].0 == ps[i].0 {
          assert Keys(r)[i] == Keys(ps)[i];
        }
      }
    }
  }

  // ---------------------------------------------------------------------------
  // Reading a query string back, as the receiving side does: the pieces
  // between `&`, each cut at its first `=` into a key and a value.

  /** `s.split(sep)`: the pieces between separators, always at least one. */
  function Split(s: string, sep: char): (r: seq<string>)
    ensures |r| >= 1
  {
    if |s| == 0 then [""]
    else
      var rest := Split(s[1..], sep);
      if s[0] == sep then [""] + rest else [[s[0]] + rest[0]] + rest[1..]
  }

  /** `s.partition(sep)` without the separator: text before the first `sep`, and after it. */
  function Cut(s: string, sep: char): (string, string) {
    if |s| == 0 then ("", "")
    else if s[0] == sep then ("", s[1..])
    else
      var kv := Cut(s[1..], sep);
      ([s[0]] + kv.0, kv.1)
  }

  function Parse(q: string): Params {
    if q == "" then [] else
      var pieces := Split(q, '&');
      seq(|pieces|, i requires 0 <= i < |pieces| => Cut(pieces[i], '='))
  }

  lemma {:induction false} SplitNoSep(a: string, sep: char)
    requires sep !in a
    ensures Split(a, sep) == [a]
  {
    if |a| > 0 {
      SplitNoSep(a[1..], sep);
      assert [a[0]] + a[1..] == a;
    }
  }

  lemma {:induction false} SplitAtSep(a: string, b: string, sep: char)
    requires sep !in a
    ensures Split(a + [sep] + b, sep) == [a] + Split(b, sep)
  {
    var s := a + [sep] + b;
    if |a| == 0 {
      assert s[1..] == b;
    } else {
      assert s[1..] == a[1..] + [sep] + b;
      SplitAtSep(a[1..], b, sep);
      assert [a[0]] + a[1..] == a;
    }
  }

  lemma {:induction false} CutAtFirst(k: string, v: string, sep: char)
    requires sep !in k
    ensures Cut(k + [sep] + v, sep) == (k, v)
  {
    var s := k + [sep] + v;
    if |k| == 0 {
      assert s[1..] == v;
    } else {
      assert s[1..] == k[1..] + [sep] + v;
      CutAtFirst(k[1..], v, sep);
      assert [k[0]] + k[1..] == k;
    }
  }

  /** No key holds `&` or `=` and no value holds `&`. */
  predicate Plain(ps: Params) {
    forall i :: 0 <= i < |ps| ==> '&' !in ps[i].0 && '=' !in ps[i].0 && '&' !in ps[i].1
  }

  lemma {:induction false} SplitQuery(ps: Params)
    requires |ps| >= 1 && Plain(ps)
    ensures Split(QueryString(ps), '&') == seq(|ps|, i requires 0 <= i < |ps| => Item(ps[i]))
  {
    var items := seq(|ps|, i requires 0 <= i < |ps| => Item(ps[i]));
    if |ps| == 1 {
      SplitNoSep(Item(ps[0]), '&');
    } else {
      SplitQuery(ps[1..]);
      SplitAtSep(Item(ps[0]), QueryString(ps[1..]), '&');
      assert Item(ps[0]) + "&" + QueryString(ps[1..]) == Item(ps[0]) + ['&'] + QueryString(ps[1..]);
      assert items == [Item(ps[0])] + seq(|ps| - 1, i requires 0 <= i < |ps| - 1 => Item(ps[1..][i]));
    }
  }

  /**
   * Round trip: the query string lists every `k=v` pair in insertion order,
   * so parsing it gives back the parameters.
   */
  lemma ParseQueryString(ps: Params)
    requires Plain(ps)
    ensures Parse(QueryString(ps)) == ps
  {
    if |ps| >= 1 {
      SplitQuery(ps);
      assert QueryString(ps) != "" by {
        if |ps| == 1 {
          assert |Item(ps[0])| >= 1;
        } else {
          assert |Item(ps[0]) + "&" + QueryString(ps[1..])| >= 1;
        }
      }
      forall i | 0 <= i < |ps| ensures Cut(Item(ps[i]), '=') == ps[i] {
        CutAtFirst(ps[i].0, ps[i].1, '=');
        assert Item(ps[i]) == ps[i].0 + ['='] + ps[i].1;
      }
    }
  }

  /**
   * The string a well-signed request's signature covers names no `signature`
   * parameter: read back, it is exactly the parameters before the signature.
   */
  lemma SignedStringOmitsSignature(ps: Params, hmac: string -> string)
    requires WellSigned(ps, hmac) && Plain(ps[..|ps| - 1])
    ensures Parse(QueryString(ps[..|ps| - 1])) == ps[..|ps| - 1]
    ensures "signature" !in Keys(Parse(QueryString(ps[..|ps| - 1])))
  {
    ParseQueryString(ps[..|ps| - 1]);
  }

  // ---------------------------------------------------------------------------

  /** `str(n)` of a non-negative integer (a millisecond timestamp). */
  function Decimal(n: nat): (r: string)
    ensures |r| >= 1
    ensures r[0] == '0' ==> n == 0
    ensures forall i :: 0 <= i < |r| ==> '0' <= r[i] <= '9'
  {
    var d := ['0' + (n % 10) as char];
    if n < 10 then d else Decimal(n / 10) + d
  }

  /** The number a string of decimal digits denotes, most significant digit first. */
  function DigitsValue(s: string): nat
    requires forall i :: 0 <= i < |s| ==> '0' <= s[i] <= '9'
  {
    if |s| == 0 then 0 else DigitsValue(s[..|s| - 1]) * 10 + (s[|s| - 1] - '0') as nat
  }

  /** `Decimal` writes exactly the number: reading its digits back gives `n`. */
  lemma {:induction false} DecimalRoundTrip(n: nat)
    ensures DigitsValue(Decimal(n)) == n
  {
    var d := ['0' + (n % 10) as char];
    if n >= 10 {
      var r := Decimal(n);
      assert r == Decimal(n / 10) + d;
      assert r[..|r| - 1] == Decimal(n / 10);
      DecimalRoundTrip(n / 10);
    }
  }
}

=== FILE: signal.dfy ===
/**
 * The signal payload of the webhook (main.py:60-72): the parsed JSON body and
 * the six fields read from it before anything else happens. A field that is
 * absent, or whose value cannot be converted, raises in the source; here the
 * conversion yields `None`.
 */
module Signal {
  import opened Wrappers

  /** A JSON value, by the kinds the field conversions tell apart. */
  datatype Value = Str(s: string) | Num(x: real) | Bool(b: bool) | Null | Composite

  /** The body `request.get_json` produced: a JSON object, or any other JSON value. */
  datatype Body = Object(fields: map<string, Value>) | NonObject(truthy: bool)

  /** The fields of a signal, with `side` and `position_type` upper-cased. */
  datatype Signal = Signal(symbol: Value, side: string, entryPrice: real, sl: real, tp: real, positionType: string)

  /**
   * `not data` is false: a non-empty object, or a truthy non-object. A payload
   * holding the six fields is never turned away as invalid JSON.
   */
  predicate Truthy(body: Body): (r: bool)
    ensures body.Object? && RequiredFields <= body.fields.Keys ==> r
  {
    match body
    case Object(m) => |m| > 0
    case NonObject(t) => t
  }

  /** ASCII upper-casing of one character. */
  function UpperChar(c: char): char {
    if 'a' <= c <= 'z' then (c as int - 32) as char else c
  }

  /**
   * `str.upper()`: no lower-case letter is left, every other character is
   * kept, and each lower-case letter becomes the capital at the same place in
   * the alphabet.
   */
  function Upper(s: string): (r: string)
    ensures |r| == |s|
    ensures forall i :: 0 <= i < |r| ==> !('a' <= r[i] <= 'z')
    ensures forall i :: 0 <= i < |s| && !('a' <= s[i] <= 'z') ==> r[i] == s[i]
    ensures forall i :: 0 <= i < |s| && 'a' <= s[i] <= 'z' ==>
      'A' <= r[i] <= 'Z' && r[i] as int - 'A' as int == s[i] as int - 'a' as int
  {
    seq(|s|, i requires 0 <= i < |s| => UpperChar(s[i]))
  }

  /** `.upper()` on a field value: only a string has that method. */
  function AsUpper(v: Value): (r: Option<string>)
    ensures r.Some? <==> v.Str?
    ensures r.Some? ==> |r.value| == |v.s| && forall i :: 0 <= i < |r.value| ==> !('a' <= r.value[i] <= 'z')
  {
    match v
    case Str(s) => Some(Upper(s))
    case _ => None
  }

  /**
   * `float(v)`: a number is itself, a boolean is 1 or 0, a string is read by
   * `parseFloat` (Python's float syntax, not modelled), anything else raises.
   */
  function AsFloat(v: Value, parseFloat: string -> Option<real>): Option<real> {
    match v
    case Num(x) => Some(x)
    case Bool(b) => Some(if b then 1.0 else 0.0)
    case Str(s) => parseFloat(s)
    case _ => None
  }

  const RequiredFields: set<string> := {"symbol", "side", "entry_price", "sl", "tp", "position_type"}

  /** main.py:67-72; `None` when any of the six lines raises. */
  function ParseSignal(body: Body, parseFloat: string -> Option<real>): (r: Option<Signal>)
    ensures r.Some? ==> body.Object? && RequiredFields <= body.fields.Keys
    ensures r.Some? ==> r.value.symbol == body.fields["symbol"]
    ensures r.Some? ==> Some(r.value.side) == AsUpper(body.fields["side"])
    ensures r.Some? ==> Some(r.value.sl) == AsFloat(body.fields["sl"], parseFloat)
    ensures r.Some? ==> Some(r.value.tp) == AsFloat(body.fields["tp"], parseFloat)
  {
    match body
    case NonObject(_) => None
    case Object(m) =>
      if !(RequiredFields <= m.Keys) then None
      else
        var side := AsUpper(m["side"]);
        var entry := AsFloat(m["entry_price"], parseFloat);
        var sl := AsFloat(m["sl"], parseFloat);
        var tp := AsFloat(m["tp"], parseFloat);
        var pos := AsUpper(m["position_type"]);
        if side.None? || entry.None? || sl.None? || tp.None? || pos.None? then None
        else Some(Signal(m["symbol"], side.value, entry.value, sl.value, tp.value, pos.value))
  }

  /** Any missing field makes the parse fail, whatever the others say. */
  lemma MissingFieldFails(body: Body, parseFloat: string -> Option<real>, k: string)
    requires k in RequiredFields
    requires body.Object? ==> k !in body.fields
    ensures ParseSignal(body, parseFloat).None?
  {}

  /** The parse succeeds exactly when every field is present and converts. */
  lemma ParseSignalSucceeds(m: map<string, Value>, parseFloat: string -> Option<real>)
    ensures ParseSignal(Object(m), parseFloat).Some? <==>
      && RequiredFields <= m.Keys
      && m["side"].Str? && m["position_type"].Str?
      && AsFloat(m["entry_price"], parseFloat).Some?
      && AsFloat(m["sl"], parseFloat).Some?
      && AsFloat(m["tp"], parseFloat).Some?
  {}

  /** Upper-casing twice is upper-casing once. */
  lemma UpperIdempotent(s: string)
    ensures Upper(Upper(s)) == Upper(s)
  {
  }

  /** The sides that upper-case to `SELL` are the sixteen spellings of "sell" in mixed case. */
  lemma UpperIsSell(s: string)
    ensures Upper(s) == "SELL" <==>
      |s| == 4 && s[0] in "sS" && s[1] in "eE" && s[2] in "lL" && s[3] in "lL"
  {
    if Upper(s) == "SELL" {
      assert UpperChar(s[0]) == 'S' && UpperChar(s[1]) == 'E';
      assert UpperChar(s[2]) == 'L' && UpperChar(s[3]) == 'L';
    }
  }
}

=== FILE: webhook.dfy ===
/**
 * The decision pipeline of the `/webhook` handler (main.py:58-145), with every
 * exchange request and response, the clock, the float formatting and the HMAC
 * passed in. The handler's reply is a status code, the kind of outcome, and
 * the requests it sent to the exchange, in order.
 */
module Webhook {
  import opened Wrappers
  import opened Quantize
  import opened Query
  import opened Account
  import opened LotInfo
  import opened Signal

  /** Status code and `executedQty` field of an order response. */
  datatype OrderResponse = OrderResponse(status: int, executedQty: Option<string>)

  /**
   * What the exchange answers: the account's `balances`, the `symbols` of the
   * exchange information (`None` when the response has no such key), the
   * ticker price, and the responses to the market order and to the OCO order.
   */
  datatype Exchange = Exchange(
    balances: seq<BalanceEntry>,
    symbols: Option<seq<SymbolInfo>>,
    price: real,
    market: OrderResponse,
    oco: OrderResponse)

  /**
   * The host's side: HMAC-SHA256 under the API secret, the `:.8f` and `:.2f`
   * formats, Python's `float` of a string, and the three clock readings.
   */
  datatype Host = Host(
    hmac: string -> string,
    fixed8: real -> string,
    fixed2: real -> string,
    parseFloat: string -> Option<real>,
    accountTs: nat,
    orderTs: nat,
    ocoTs: nat)

  /** A request to the exchange. */
  datatype Call =
    | GetAccount(params: Params)
    | GetExchangeInfo(symbol: Value)
    | GetPrice(symbol: Value)
    | PostOrder(params: Params)
    | PostOco(params: Params)
  {
    predicate Signed() {
      GetAccount? || PostOrder? || PostOco?
    }
  }

  datatype Kind =
    | InvalidJson   // main.py:61-62
    | Raised        // main.py:143-145, any exception
    | IgnoredSell   // main.py:75-77
    | NoBalance     // main.py:82-83
    | LotNotFound   // main.py:86-87
    | BelowMinQty   // main.py:92-93
    | MarketFailed  // main.py:110-112
    | OcoFailed     // main.py:133-135, a warning
    | Executed      // main.py:137-141

  datatype Reply = Reply(status: int, kind: Kind, calls: seq<Call>)

  /** Every signed request carries the signature of the parameters before it. */
  predicate AllWellSigned(calls: seq<Call>, hmac: string -> string) {
    forall i :: 0 <= i < |calls| && calls[i].Signed() ==> WellSigned(calls[i].params, hmac)
  }

  /** Recording one more well-signed request keeps every request well signed. */
  lemma AppendSigned(calls: seq<Call>, c: Call, hmac: string -> string)
    requires AllWellSigned(calls, hmac)
    requires c.Signed() ==> WellSigned(c.params, hmac)
    ensures AllWellSigned(calls + [c], hmac)
  {}

  /** The HTTP status each outcome is answered with. */
  function StatusOf(k: Kind): (r: int)
    ensures r == 200 <==> k == IgnoredSell || k == OcoFailed || k == Executed
    ensures r == 500 <==> k == Raised
    ensures r == 200 || r == 400 || r == 500
  {
    match k
    case InvalidJson => 400
    case Raised => 500
    case IgnoredSell => 200
    case NoBalance => 400
    case LotNotFound => 400
    case BelowMinQty => 400
    case MarketFailed => 400
    case OcoFailed => 200
    case Executed => 200
  }

  const QuoteAsset := "USDC"
  const RiskFraction: real := 0.02

  // ---------------------------------------------------------------------------
  // The signed requests.

  /** `{"timestamp": ts}` plus its signature (main.py:31-32). */
  function AccountParams(ts: nat, hmac: string -> string): (r: Params)
    ensures WellSigned(r, hmac)
  {
    var ps := [("timestamp", Decimal(ts))];
    SignAppendsSignature(ps, hmac);
    Sign(ps, hmac)
  }

  /** The fields of the market BUY order (main.py:97-103). */
  function MarketOrderFields(symbol: string, quantity: string, ts: nat): (ps: Params)
    ensures DistinctKeys(ps) && "signature" !in Keys(ps)
  {
    [("symbol", symbol), ("side", "BUY"), ("type", "MARKET"), ("quantity", quantity),
     ("timestamp", Decimal(ts))]
  }

  /** The signed market order (main.py:104). */
  function MarketOrderParams(symbol: string, quantity: string, ts: nat, hmac: string -> string): (r: Params)
    ensures WellSigned(r, hmac)
  {
    var ps := MarketOrderFields(symbol, quantity, ts);
    SignAppendsSignature(ps, hmac);
    Sign(ps, hmac)
  }

  /** The market order is a BUY at MARKET for the symbol and quantity, with distinct keys. */
  lemma MarketOrderContents(symbol: string, quantity: string, ts: nat, hmac: string -> string)
    ensures var r := MarketOrderParams(symbol, quantity, ts, hmac);
      && DistinctKeys(r)
      && Lookup(r, "side") == Some("BUY") && Lookup(r, "type") == Some("MARKET")
      && Lookup(r, "symbol") == Some(symbol) && Lookup(r, "quantity") == Some(quantity)
  {
    var ps := MarketOrderFields(symbol, quantity, ts);
    SignAppendsSignature(ps, hmac);
    var r := Sign(ps, hmac);
    LookupAt(r, 0);
    LookupAt(r, 1);
    LookupAt(r, 2);
    LookupAt(r, 3);
  }

  /** The fields of the OCO SELL order that brackets the position (main.py:118-127). */
  function OcoFields(symbol: string, quantity: string, price: string, stop: string, ts: nat): (ps: Params)
    ensures DistinctKeys(ps) && "signature" !in Keys(ps)
  {
    [("symbol", symbol), ("side", "SELL"), ("quantity", quantity), ("price", price),
     ("stopPrice", stop), ("stopLimitPrice", stop), ("stopLimitTimeInForce", "GTC"),
     ("timestamp", Decimal(ts))]
  }

  /** The signed OCO order (main.py:128). */
  function OcoParams(symbol: string, quantity: string, price: string, stop: string, ts: nat,
                     hmac: string -> string): (r: Params)
    ensures WellSigned(r, hmac)
  {
    var ps := OcoFields(symbol, quantity, price, stop, ts);
    SignAppendsSignature(ps, hmac);
    Sign(ps, hmac)
  }

  /**
   * The OCO order is a SELL of the quantity for the symbol at the price, with
   * the stop and stop-limit prices equal, and distinct keys.
   */
  lemma OcoContents(symbol: string, quantity: string, price: string, stop: string, ts: nat,
                    hmac: string -> string)
    ensures var r := OcoParams(symbol, quantity, price, stop, ts, hmac);
      && DistinctKeys(r)
      && Lookup(r, "side") == Some("SELL") && Lookup(r, "symbol") == Some(symbol)
      && Lookup(r, "quantity") == Some(quantity) && Lookup(r, "price") == Some(price)
      && Lookup(r, "stopPrice") == Lookup(r, "stopLimitPrice") == Some(stop)
  {
    var ps := OcoFields(symbol, quantity, price, stop, ts);
    SignAppendsSignature(ps, hmac);
    var r := Sign(ps, hmac);
    LookupAt(r, 0);
    LookupAt(r, 1);
    LookupAt(r, 2);
    LookupAt(r, 3);
    LookupAt(r, 4);
    LookupAt(r, 5);
  }

  // ---------------------------------------------------------------------------
  // The quantities the decisions read.

  /** `get_balance("USDC") * 0.02` (main.py:80-81) */
  function TwoPercent(ex: Exchange): (r: real)
    ensures (forall i :: 0 <= i < |ex.balances| ==> ex.balances[i].asset != "USDC") ==> r == 0.0
    ensures forall i :: 0 <= i < |ex.balances| && ex.balances[i].asset == "USDC"
                        && (forall j :: 0 <= j < i ==> ex.balances[j].asset != "USDC")
                        ==> r == ex.balances[i].free * 0.02
  {
    GetBalance(ex.balances, QuoteAsset) * RiskFraction
  }

  /** `get_lot_info(symbol)`; a non-string symbol equals no exchange symbol name. */
  function LotFor(symbol: Value, symbols: seq<SymbolInfo>): (r: Option<Lot>)
    ensures r.Some? ==> symbol.Str?
    ensures symbol.Str? ==> (r.None? <==> forall i :: 0 <= i < |symbols| ==> symbols[i].symbol != symbol.s)
  {
    match symbol
    case Str(name) => GetLotInfo(symbols, name)
    case _ => None
  }

  /** `round_step(two_percent / price, lot["stepSize"])` (main.py:90-91) */
  function Quantity(ex: Exchange, step: real): (q: real)
    requires ex.price != 0.0 && step != 0.0
    ensures step > 0.0 ==> q <= TwoPercent(ex) / ex.price
    ensures IsMultipleOf(q, step)
  {
    RoundStep(TwoPercent(ex) / ex.price, step)
  }

  // ---------------------------------------------------------------------------
  // The handler.

  /** `webhook()`: main.py:59-145. */
  function Handle(body: Body, ex: Exchange, host: Host): (r: Reply)
    ensures r.status == StatusOf(r.kind)
    ensures AllWellSigned(r.calls, host.hmac)
  {
    if !Truthy(body) then Reply(400, InvalidJson, [])
    else
      match ParseSignal(body, host.parseFloat)
      case None => Reply(500, Raised, [])
      case Some(sig) =>
        if sig.side == "SELL" then Reply(200, IgnoredSell, [])
        else Buy(sig, ex, host)
  }

  /** Everything that is not SELL is handled as a BUY (main.py:79-83). */
  function Buy(sig: Signal, ex: Exchange, host: Host): (r: Reply)
    ensures r.status == StatusOf(r.kind)
    ensures AllWellSigned(r.calls, host.hmac)
  {
    var account := GetAccount(AccountParams(host.accountTs, host.hmac));
    AppendSigned([], account, host.hmac);
    assert [] + [account] == [account];
    var c1 := [account];
    if TwoPercent(ex) <= 0.0 then Reply(400, NoBalance, c1)
    else FindLot(sig, ex, host, c1)
  }

  /** main.py:85-87, after the balance check. */
  function FindLot(sig: Signal, ex: Exchange, host: Host, calls: seq<Call>): (r: Reply)
    requires AllWellSigned(calls, host.hmac)
    ensures r.status == StatusOf(r.kind)
    ensures AllWellSigned(r.calls, host.hmac)
  {
    var c2 := calls + [GetExchangeInfo(sig.symbol)];
    AppendSigned(calls, GetExchangeInfo(sig.symbol), host.hmac);
    match ex.symbols
    case None => Reply(500, Raised, c2)
    case Some(symbols) =>
      var lot := LotFor(sig.symbol, symbols);
      if lot.None? || lot.value.IsEmpty() then Reply(400, LotNotFound, c2)
      else SizeOrder(sig, sig.symbol.s, lot.value, ex, host, c2)
  }

  /** main.py:89-93, once the lot is known. */
  function SizeOrder(sig: Signal, name: string, lot: Lot, ex: Exchange, host: Host, calls: seq<Call>): (r: Reply)
    requires AllWellSigned(calls, host.hmac)
    ensures r.status == StatusOf(r.kind)
    ensures AllWellSigned(r.calls, host.hmac)
  {
    var c3 := calls + [GetPrice(sig.symbol)];
    AppendSigned(calls, GetPrice(sig.symbol), host.hmac);
    if ex.price == 0.0 then Reply(500, Raised, c3)
    else match lot.lotSize
      case None => Reply(500, Raised, c3)
      case Some(ls) =>
        if ls.stepSize == 0.0 then Reply(500, Raised, c3)
        else
          var qty := Quantity(ex, ls.stepSize);
          if qty < ls.minQty then Reply(400, BelowMinQty, c3)
          else PlaceOrders(sig, name, qty, ex, host, c3)
  }

  /** The market order and, after a 200 response to it, the OCO order (main.py:95-141). */
  function PlaceOrders(sig: Signal, name: string, qty: real, ex: Exchange, host: Host, calls: seq<Call>): (r: Reply)
    requires AllWellSigned(calls, host.hmac)
    ensures r.status == StatusOf(r.kind)
    ensures AllWellSigned(r.calls, host.hmac)
  {
    var order := PostOrder(MarketOrderParams(name, host.fixed8(qty), host.orderTs, host.hmac));
    var c4 := calls + [order];
    AppendSigned(calls, order, host.hmac);
    if ex.market.status != 200 then Reply(400, MarketFailed, c4)
    else
      var executed := ex.market.executedQty.GetOr(host.fixed8(qty));
      var oco := OcoParams(name, executed, host.fixed2(sig.tp), host.fixed2(sig.sl), host.ocoTs, host.hmac);
      var c5 := c4 + [PostOco(oco)];
      AppendSigned(c4, PostOco(oco), host.hmac);
      if ex.oco.status != 200 then Reply(200, OcoFailed, c5) else Reply(200, Executed, c5)
  }
}

=== FILE: webhook_props.dfy ===
/**
 * What the webhook handler does, in terms of the gates a request passes in
 * turn: which outcome each input leads to, when an order is sent, and what
 * the sent orders contain.
 */
module WebhookProperties {
  import opened Wrappers
  import opened Quantize
  import opened Query
  import opened Account
  import opened LotInfo
  import opened Signal
  import opened Webhook

  // ---------------------------------------------------------------------------
  // The gates, in the order the handler meets them.

  /** The signal, when the body is truthy and all six fields convert. */
  function SignalOf(body: Body, host: Host): Option<Signal> {
    if Truthy(body) then ParseSignal(body, host.parseFloat) else None
  }

  predicate IsSell(body: Body, host: Host) {
    SignalOf(body, host).Some? && SignalOf(body, host).value.side == "SELL"
  }

  /** A parsed signal that is not SELL, with a positive 2% of the USDC balance. */
  predicate Funded(body: Body, ex: Exchange, host: Host) {
    && SignalOf(body, host).Some?
    && SignalOf(body, host).value.side != "SELL"
    && TwoPercent(ex) > 0.0
  }

  /** Funded, and the exchange information lists a non-empty lot for the symbol. */
  predicate LotKnown(body: Body, ex: Exchange, host: Host) {
    && Funded(body, ex, host)
    && ex.symbols.Some?
    && var lot := LotFor(SignalOf(body, host).value.symbol, ex.symbols.value);
       lot.Some? && !lot.value.IsEmpty()
  }

  /** The lot once it is known. */
  function KnownLot(body: Body, ex: Exchange, host: Host): Lot
    requires LotKnown(body, ex, host)
  {
    LotFor(SignalOf(body, host).value.symbol, ex.symbols.value).value
  }

  /** The lot is known, and the quantity can be computed: non-zero price, a step size that is present and non-zero. */
  predicate Sizable(body: Body, ex: Exchange, host: Host) {
    && LotKnown(body, ex, host)
    && ex.price != 0.0
    && KnownLot(body, ex, host).lotSize.Some?
    && KnownLot(body, ex, host).lotSize.value.stepSize != 0.0
  }

  /** The quantity the market order asks for. */
  function SizedQty(body: Body, ex: Exchange, host: Host): real
    requires Sizable(body, ex, host)
  {
    Quantity(ex, KnownLot(body, ex, host).lotSize.value.stepSize)
  }

  /** Every gate before the market order is passed. */
  predicate OrderAllowed(body: Body, ex: Exchange, host: Host) {
    Sizable(body, ex, host) && SizedQty(body, ex, host) >= KnownLot(body, ex, host).lotSize.value.minQty
  }

  predicate PlacesOrder(calls: seq<Call>) {
    exists i :: 0 <= i < |calls| && calls[i].PostOrder?
  }

  predicate PlacesOco(calls: seq<Call>) {
    exists i :: 0 <= i < |calls| && calls[i].PostOco?
  }

  /** No market or OCO order among the requests. */
  predicate NoOrders(calls: seq<Call>) {
    forall i :: 0 <= i < |calls| ==> !calls[i].PostOrder? && !calls[i].PostOco?
  }

  // ---------------------------------------------------------------------------
  // The requests of the BUY path, in the shapes the handler builds them.

  /** The account read. */
  function Read1(host: Host): seq<Call> {
    [GetAccount(AccountParams(host.accountTs, host.hmac))]
  }

  /** ... then the exchange information read. */
  function Read2(sig: Signal, host: Host): seq<Call> {
    Read1(host) + [GetExchangeInfo(sig.symbol)]
  }

  /** ... then the price read. */
  function Read3(sig: Signal, host: Host): seq<Call> {
    Read2(sig, host) + [GetPrice(sig.symbol)]
  }

  function OrderCall(name: string, q: real, host: Host): Call {
    PostOrder(MarketOrderParams(name, host.fixed8(q), host.orderTs, host.hmac))
  }

  function OcoCall(sig: Signal, name: string, q: real, ex: Exchange, host: Host): Call {
    PostOco(OcoParams(name, ex.market.executedQty.GetOr(host.fixed8(q)),
                      host.fixed2(sig.tp), host.fixed2(sig.sl), host.ocoTs, host.hmac))
  }

  lemma ReadsAreSigned(sig: Signal, host: Host)
    ensures AllWellSigned(Read1(host), host.hmac)
    ensures AllWellSigned(Read2(sig, host), host.hmac)
    ensures AllWellSigned(Read3(sig, host), host.hmac)
  {
    AppendSigned([], Read1(host)[0], host.hmac);
    assert [] + [Read1(host)[0]] == Read1(host);
    AppendSigned(Read1(host), GetExchangeInfo(sig.symbol), host.hmac);
    AppendSigned(Read2(sig, host), GetPrice(sig.symbol), host.hmac);
  }

  lemma NoOrdersAppend(calls: seq<Call>, c: Call)
    requires NoOrders(calls) && !c.PostOrder? && !c.PostOco?
    ensures NoOrders(calls + [c])
  {
    assert forall i :: 0 <= i < |calls| ==> (calls + [c])[i] == calls[i];
  }

  lemma ReadsHaveNoOrders(sig: Signal, host: Host)
    ensures NoOrders([]) && NoOrders(Read1(host)) && NoOrders(Read2(sig, host)) && NoOrders(Read3(sig, host))
  {
    NoOrdersAppend([], GetAccount(AccountParams(host.accountTs, host.hmac)));
    NoOrdersAppend(Read1(host), GetExchangeInfo(sig.symbol));
    NoOrdersAppend(Read2(sig, host), GetPrice(sig.symbol));
  }

  // ---------------------------------------------------------------------------
  // The handler, one stage at a time.

  lemma HandleFront(body: Body, ex: Exchange, host: Host)
    ensures var r := Handle(body, ex, host);
      && (!Truthy(body) ==> r == Reply(400, InvalidJson, []))
      && (Truthy(body) && SignalOf(body, host).None? ==> r == Reply(500, Raised, []))
      && (IsSell(body, host) ==> r == Reply(200, IgnoredSell, []))
      && (SignalOf(body, host).Some? && !IsSell(body, host) ==> r == Buy(SignalOf(body, host).value, ex, host))
  {
  }

  lemma HandleNoBalance(body: Body, ex: Exchange, host: Host)
    requires SignalOf(body, host).Some? && !IsSell(body, host) && TwoPercent(ex) <= 0.0
    ensures Handle(body, ex, host) == Reply(400, NoBalance, Read1(host))
  {
    HandleFront(body, ex, host);
  }

  /** Past the balance check the handler continues with the lot lookup. */
  lemma HandleFunded(body: Body, ex: Exchange, host: Host)
    requires Funded(body, ex, host)
    ensures AllWellSigned(Read1(host), host.hmac)
    ensures Handle(body, ex, host) == FindLot(SignalOf(body, host).value, ex, host, Read1(host))
  {
    HandleFront(body, ex, host);
    ReadsAreSigned(SignalOf(body, host).value, host);
  }

  lemma HandleNoSymbols(body: Body, ex: Exchange, host: Host)
    requires Funded(body, ex, host) && ex.symbols.None?
    ensures Handle(body, ex, host) == Reply(500, Raised, Read2(SignalOf(body, host).value, host))
  {
    HandleFunded(body, ex, host);
  }

  lemma HandleLotNotFound(body: Body, ex: Exchange, host: Host)
    requires Funded(body, ex, host) && ex.symbols.Some? && !LotKnown(body, ex, host)
    ensures Handle(body, ex, host) == Reply(400, LotNotFound, Read2(SignalOf(body, host).value, host))
  {
    HandleFunded(body, ex, host);
  }

  /** Once the lot is known the handler continues with the sizing. */
  lemma HandleLotKnown(body: Body, ex: Exchange, host: Host)
    requires LotKnown(body, ex, host)
    ensures var sig := SignalOf(body, host).value;
      && AllWellSigned(Read2(sig, host), host.hmac)
      && Handle(body, ex, host) == SizeOrder(sig, sig.symbol.s, KnownLot(body, ex, host), ex, host, Read2(sig, host))
  {
    HandleFunded(body, ex, host);
    ReadsAreSigned(SignalOf(body, host).value, host);
  }

  lemma HandleUnsizable(body: Body, ex: Exchange, host: Host)
    requires LotKnown(body, ex, host) && !Sizable(body, ex, host)
    ensures Handle(body, ex, host) == Reply(500, Raised, Read3(SignalOf(body, host).value, host))
  {
    HandleLotKnown(body, ex, host);
  }

  lemma HandleBelowMinQty(body: Body, ex: Exchange, host: Host)
    requires Sizable(body, ex, host) && !OrderAllowed(body, ex, host)
    ensures Handle(body, ex, host) == Reply(400, BelowMinQty, Read3(SignalOf(body, host).value, host))
  {
    HandleLotKnown(body, ex, host);
  }

  /** Past every gate the handler places the orders after the three reads. */
  lemma HandleOrders(body: Body, ex: Exchange, host: Host)
    requires OrderAllowed(body, ex, host)
    ensures var sig := SignalOf(body, host).value;
      && AllWellSigned(Read3(sig, host), host.hmac)
      && Handle(body, ex, host) == PlaceOrders(sig, sig.symbol.s, SizedQty(body, ex, host), ex, host, Read3(sig, host))
  {
    HandleLotKnown(body, ex, host);
    ReadsAreSigned(SignalOf(body, host).value, host);
  }

  lemma PlaceOrdersMarketFailed(sig: Signal, name: string, q: real, ex: Exchange, host: Host, calls: seq<Call>)
    requires AllWellSigned(calls, host.hmac) && ex.market.status != 200
    ensures PlaceOrders(sig, name, q, ex, host, calls) == Reply(400, MarketFailed, calls + [OrderCall(name, q, host)])
  {
  }

  lemma PlaceOrdersOcoFailed(sig: Signal, name: string, q: real, ex: Exchange, host: Host, calls: seq<Call>)
    requires AllWellSigned(calls, host.hmac) && ex.market.status == 200 && ex.oco.status != 200
    ensures PlaceOrders(sig, name, q, ex, host, calls) ==
      Reply(200, OcoFailed, calls + [OrderCall(name, q, host)] + [OcoCall(sig, name, q, ex, host)])
  {
  }

  lemma PlaceOrdersExecuted(sig: Signal, name: string, q: real, ex: Exchange, host: Host, calls: seq<Call>)
    requires AllWellSigned(calls, host.hmac) && ex.market.status == 200 && ex.oco.status == 200
    ensures PlaceOrders(sig, name, q, ex, host, calls) ==
      Reply(200, Executed, calls + [OrderCall(name, q, host)] + [OcoCall(sig, name, q, ex, host)])
  {
  }

  /** Short of every gate passing, the handler sends nothing but reads. */
  lemma ReadsOnly(body: Body, ex: Exchange, host: Host)
    requires !OrderAllowed(body, ex, host)
    ensures var r := Handle(body, ex, host);
      && |r.calls| <= 3
      && r.kind !in {MarketFailed, OcoFailed, Executed}
      && NoOrders(r.calls)
  {
    HandleFront(body, ex, host);
    if SignalOf(body, host).Some? && !IsSell(body, host) {
      var sig := SignalOf(body, host).value;
      ReadsHaveNoOrders(sig, host);
      if TwoPercent(ex) <= 0.0 {
        HandleNoBalance(body, ex, host);
      } else if ex.symbols.None? {
        HandleNoSymbols(body, ex, host);
      } else if !LotKnown(body, ex, host) {
        HandleLotNotFound(body, ex, host);
      } else if !Sizable(body, ex, host) {
        HandleUnsizable(body, ex, host);
      } else {
        HandleBelowMinQty(body, ex, host);
      }
    }
  }

  /** Past every gate, the reads are followed by the market order and, after a 200, the OCO order. */
  lemma OrderedCalls(body: Body, ex: Exchange, host: Host)
    requires OrderAllowed(body, ex, host)
    ensures var r := Handle(body, ex, host);
      var sig := SignalOf(body, host).value;
      var q := SizedQty(body, ex, host);
      var order := OrderCall(sig.symbol.s, q, host);
      var oco := OcoCall(sig, sig.symbol.s, q, ex, host);
      && (ex.market.status != 200 ==> r == Reply(400, MarketFailed, Read3(sig, host) + [order]))
      && (ex.market.status == 200 && ex.oco.status != 200 ==> r == Reply(200, OcoFailed, Read3(sig, host) + [order] + [oco]))
      && (ex.market.status == 200 && ex.oco.status == 200 ==> r == Reply(200, Executed, Read3(sig, host) + [order] + [oco]))
  {
    HandleOrders(body, ex, host);
    var sig := SignalOf(body, host).value;
    var q := SizedQty(body, ex, host);
    if ex.market.status != 200 {
      PlaceOrdersMarketFailed(sig, sig.symbol.s, q, ex, host, Read3(sig, host));
    } else if ex.oco.status != 200 {
      PlaceOrdersOcoFailed(sig, sig.symbol.s, q, ex, host, Read3(sig, host));
    } else {
      PlaceOrdersExecuted(sig, sig.symbol.s, q, ex, host, Read3(sig, host));
    }
  }

  lemma OrderAt(pre: seq<Call>, order: Call, oco: Call)
    ensures |pre + [order]| == |pre| + 1 && (pre + [order])[|pre|] == order && (pre + [order])[..|pre|] == pre
    ensures |pre + [order] + [oco]| == |pre| + 2 && (pre + [order] + [oco])[..|pre|] == pre
    ensures (pre + [order] + [oco])[|pre|] == order && (pre + [order] + [oco])[|pre| + 1] == oco
  {
    assert (pre + [order] + [oco])[..|pre|] == (pre + [order])[..|pre|];
  }

  /** `OrderedCalls`, request by request. */
  lemma OrderedCallsAt(body: Body, ex: Exchange, host: Host)
    requires OrderAllowed(body, ex, host)
    ensures var r := Handle(body, ex, host);
      var sig := SignalOf(body, host).value;
      var q := SizedQty(body, ex, host);
      && |r.calls| == (if ex.market.status == 200 then 5 else 4)
      && r.calls[..3] == Read3(sig, host)
      && r.calls[3] == OrderCall(sig.symbol.s, q, host)
      && (ex.market.status == 200 ==> r.calls[4] == OcoCall(sig, sig.symbol.s, q, ex, host))
  {
    OrderedCalls(body, ex, host);
    var sig := SignalOf(body, host).value;
    var q := SizedQty(body, ex, host);
    assert |Read3(sig, host)| == 3;
    OrderAt(Read3(sig, host), OrderCall(sig.symbol.s, q, host), OcoCall(sig, sig.symbol.s, q, ex, host));
  }

  // ---------------------------------------------------------------------------

  /**
   * The decision table: each outcome happens exactly when the gates before it
   * pass and its own gate fails. Every other input raises (status 500).
   */
  lemma OutcomeTable(body: Body, ex: Exchange, host: Host)
    ensures var r := Handle(body, ex, host);
      && (r.kind == InvalidJson <==> !Truthy(body))
      && (r.kind == IgnoredSell <==> IsSell(body, host))
      && (r.kind == NoBalance <==>
            SignalOf(body, host).Some? && !IsSell(body, host) && TwoPercent(ex) <= 0.0)
      && (r.kind == LotNotFound <==>
            Funded(body, ex, host) && ex.symbols.Some? && !LotKnown(body, ex, host))
      && (r.kind == BelowMinQty <==> Sizable(body, ex, host) && !OrderAllowed(body, ex, host))
      && (r.kind == MarketFailed <==> OrderAllowed(body, ex, host) && ex.market.status != 200)
      && (r.kind == OcoFailed <==>
            OrderAllowed(body, ex, host) && ex.market.status == 200 && ex.oco.status != 200)
      && (r.kind == Executed <==>
            OrderAllowed(body, ex, host) && ex.market.status == 200 && ex.oco.status == 200)
  {
    HandleFront(body, ex, host);
    if SignalOf(body, host).Some? && !IsSell(body, host) {
      if TwoPercent(ex) <= 0.0 {
        HandleNoBalance(body, ex, host);
      } else if ex.symbols.None? {
        HandleNoSymbols(body, ex, host);
      } else if !LotKnown(body, ex, host) {
        HandleLotNotFound(body, ex, host);
      } else if !Sizable(body, ex, host) {
        HandleUnsizable(body, ex, host);
      } else if !OrderAllowed(body, ex, host) {
        HandleBelowMinQty(body, ex, host);
      } else {
        OrderedCalls(body, ex, host);
      }
    }
  }

  /**
   * A payload missing any of the six fields raises before the side is looked
   * at, so even a SELL ends in the 500 path, with no request sent.
   */
  lemma MissingFieldRaises(body: Body, ex: Exchange, host: Host, k: string)
    requires Truthy(body) && k in RequiredFields
    requires body.Object? ==> k !in body.fields
    ensures Handle(body, ex, host) == Reply(500, Raised, [])
  {
    MissingFieldFails(body, host.parseFloat, k);
  }

  /** A side that upper-cases to SELL is answered 200 and sends nothing. */
  lemma SellSendsNothing(body: Body, ex: Exchange, host: Host)
    requires IsSell(body, host)
    ensures Handle(body, ex, host) == Reply(200, IgnoredSell, [])
  {
    HandleFront(body, ex, host);
  }

  /** A market order is sent exactly when every gate before it passes. */
  lemma MarketOrderGate(body: Body, ex: Exchange, host: Host)
    ensures PlacesOrder(Handle(body, ex, host).calls) <==> OrderAllowed(body, ex, host)
  {
    if OrderAllowed(body, ex, host) {
      OrderedCallsAt(body, ex, host);
      assert Handle(body, ex, host).calls[3].PostOrder?;
    } else {
      ReadsOnly(body, ex, host);
    }
  }

  lemma ReadKinds(sig: Signal, host: Host)
    ensures var rd := Read3(sig, host);
      |rd| == 3 && rd[0].GetAccount? && rd[1].GetExchangeInfo? && rd[2].GetPrice?
  {
  }

  lemma OrderCallContents(name: string, q: real, host: Host)
    ensures var c := OrderCall(name, q, host);
      && c.PostOrder?
      && Lookup(c.params, "side") == Some("BUY") && Lookup(c.params, "type") == Some("MARKET")
      && Lookup(c.params, "symbol") == Some(name) && Lookup(c.params, "quantity") == Some(host.fixed8(q))
  {
    Webhook.MarketOrderContents(name, host.fixed8(q), host.orderTs, host.hmac);
  }

  /**
   * The market order sent: the fourth request, after the account, exchange
   * information and price reads; a BUY at MARKET for the symbol, of a quantity
   * that is a whole number of steps, at least `minQty`, and (for a positive
   * step) at most 2% of the balance divided by the price.
   */
  lemma MarketOrderSent(body: Body, ex: Exchange, host: Host)
    requires OrderAllowed(body, ex, host)
    ensures var r := Handle(body, ex, host);
      var lot := KnownLot(body, ex, host).lotSize.value;
      var q := SizedQty(body, ex, host);
      && |r.calls| >= 4
      && r.calls[0].GetAccount? && r.calls[1].GetExchangeInfo? && r.calls[2].GetPrice?
      && r.calls[3].PostOrder?
      && Lookup(r.calls[3].params, "side") == Some("BUY")
      && Lookup(r.calls[3].params, "type") == Some("MARKET")
      && Lookup(r.calls[3].params, "symbol") == Some(SignalOf(body, host).value.symbol.s)
      && Lookup(r.calls[3].params, "quantity") == Some(host.fixed8(q))
      && IsMultipleOf(q, lot.stepSize)
      && q >= lot.minQty
      && (lot.stepSize > 0.0 ==> q <= TwoPercent(ex) / ex.price)
  {
    OrderedCallsAt(body, ex, host);
    var r := Handle(body, ex, host);
    var sig := SignalOf(body, host).value;
    var q := SizedQty(body, ex, host);
    ReadKinds(sig, host);
    assert r.calls[0] == r.calls[..3][0];
    assert r.calls[1] == r.calls[..3][1];
    assert r.calls[2] == r.calls[..3][2];
    OrderCallContents(sig.symbol.s, q, host);
  }

  lemma NoOcoAfter(pre: seq<Call>, order: Call)
    requires NoOrders(pre) && order.PostOrder?
    ensures !PlacesOco(pre + [order])
  {
    assert forall i :: 0 <= i < |pre| ==> (pre + [order])[i] == pre[i];
  }

  /** An OCO order is sent exactly when the market order was sent and answered 200. */
  lemma OcoGate(body: Body, ex: Exchange, host: Host)
    ensures PlacesOco(Handle(body, ex, host).calls) <==>
      OrderAllowed(body, ex, host) && ex.market.status == 200
  {
    if OrderAllowed(body, ex, host) {
      if ex.market.status == 200 {
        OrderedCallsAt(body, ex, host);
        assert Handle(body, ex, host).calls[4].PostOco?;
      } else {
        OrderedCalls(body, ex, host);
        var sig := SignalOf(body, host).value;
        ReadsHaveNoOrders(sig, host);
        NoOcoAfter(Read3(sig, host), OrderCall(sig.symbol.s, SizedQty(body, ex, host), host));
      }
    } else {
      ReadsOnly(body, ex, host);
    }
  }

  /**
   * The OCO order sent: a SELL of the executed quantity (or, when the response
   * has none, of the ordered quantity), at the payload's `tp`, with the stop
   * and stop-limit prices both the payload's `sl`.
   */
  lemma OcoSent(body: Body, ex: Exchange, host: Host)
    requires OrderAllowed(body, ex, host) && ex.market.status == 200
    ensures var r := Handle(body, ex, host);
      var sig := SignalOf(body, host).value;
      && |r.calls| == 5
      && r.calls[3].PostOrder? && r.calls[4].PostOco?
      && Lookup(r.calls[4].params, "side") == Some("SELL")
      && Lookup(r.calls[4].params, "quantity") == Some(ex.market.executedQty.GetOr(host.fixed8(SizedQty(body, ex, host))))
      && Lookup(r.calls[4].params, "price") == Some(host.fixed2(sig.tp))
      && Lookup(r.calls[4].params, "stopPrice") == Lookup(r.calls[4].params, "stopLimitPrice")
      && Lookup(r.calls[4].params, "stopPrice") == Some(host.fixed2(sig.sl))
  {
    OrderedCallsAt(body, ex, host);
    var sig := SignalOf(body, host).value;
    Webhook.OcoContents(sig.symbol.s, ex.market.executedQty.GetOr(host.fixed8(SizedQty(body, ex, host))),
                        host.fixed2(sig.tp), host.fixed2(sig.sl), host.ocoTs, host.hmac);
  }

  /**
   * A failed OCO is a 200 warning; the market order stands and nothing is
   * sent after the OCO attempt.
   */
  lemma OcoFailureKeepsMarketOrder(body: Body, ex: Exchange, host: Host)
    requires Handle(body, ex, host).kind == OcoFailed
    ensures var r := Handle(body, ex, host);
      && r.status == 200
      && |r.calls| == 5
      && r.calls[3].PostOrder? && r.calls[4].PostOco?
  {
    if !OrderAllowed(body, ex, host) {
      ReadsOnly(body, ex, host);
      assert false;
    } else if ex.market.status != 200 {
      OrderedCalls(body, ex, host);
      assert false;
    } else {
      OrderedCallsAt(body, ex, host);
    }
  }

  // ---------------------------------------------------------------------------
  // A worked sizing: 2% of the USDC balance at a price of 50000, with a
  // step size and minimum quantity of 0.0001.

  predicate BtcMarket(body: Body, ex: Exchange, host: Host, usdc: real) {
    && SignalOf(body, host).Some?
    && SignalOf(body, host).value.side == "BUY"
    && SignalOf(body, host).value.symbol == Str("BTCUSDC")
    && ex.balances == [BalanceEntry("USDC", usdc)]
    && ex.symbols == Some([SymbolInfo("BTCUSDC", [Filter("LOT_SIZE", 0.0001, 0.0001, 0.0),
                                                  Filter("PRICE_FILTER", 0.0, 0.0, 0.01)])])
    && ex.price == 50000.0
  }

  /** In that market the balance is found and the lot holds the two filters' values. */
  lemma BtcLot(body: Body, ex: Exchange, host: Host, usdc: real)
    requires BtcMarket(body, ex, host, usdc)
    ensures TwoPercent(ex) == usdc * 0.02
    ensures LotFor(SignalOf(body, host).value.symbol, ex.symbols.value) ==
      Some(Lot(Some(LotSize(0.0001, 0.0001)), Some(0.01)))
  {
  }

  /** A balance of 1000 gives 20 to spend, 0.0004 of the base asset: the order is sent for that amount. */
  lemma SizingExampleOrders(body: Body, ex: Exchange, host: Host)
    requires BtcMarket(body, ex, host, 1000.0)
    ensures OrderAllowed(body, ex, host)
    ensures SizedQty(body, ex, host) == 0.0004
    ensures PlacesOrder(Handle(body, ex, host).calls)
  {
    BtcLot(body, ex, host, 1000.0);
    assert Sizable(body, ex, host);
    assert 20.0 / 50000.0 == 4 as real * 0.0001;
    MultipleOfInt(4, 0.0001);
    RoundStepFixesMultiples(0.0004, 0.0001);
    assert SizedQty(body, ex, host) == RoundStep(0.0004, 0.0001);
    MarketOrderGate(body, ex, host);
  }

  /** A balance of 100 gives 0.00004, which rounds down to 0, below `minQty`: nothing is sent. */
  lemma SizingExampleTooSmall(body: Body, ex: Exchange, host: Host)
    requires BtcMarket(body, ex, host, 100.0)
    ensures Handle(body, ex, host).kind == BelowMinQty
    ensures !PlacesOrder(Handle(body, ex, host).calls)
  {
    BtcLot(body, ex, host, 100.0);
    assert Sizable(body, ex, host);
    RoundStepBelowStepIsZero(0.00004, 0.0001);
    assert SizedQty(body, ex, host) == RoundStep(2.0 / 50000.0, 0.0001) == 0.0;
    HandleBelowMinQty(body, ex, host);
    MarketOrderGate(body, ex, host);
  }
}

=== FILE: wrappers.dfy ===
/** Optional values: Python's `None` versus a present value. */
module Wrappers {

  datatype Option<+T> = None | Some(value: T) {

    /** The present value, or `default` when there is none (Python's `dict.get(k, default)`). */
    function GetOr(default: T): T {
      match this
      case Some(v) => v
      case None => default
    }
  }
}
